=== FILE: README.md ===
# Chat key changer — a Dafny model

A browser content script swaps "Enter sends / Shift+Enter adds a newline" to
"Enter adds a newline / Shift+Enter sends" inside the chat inputs of twelve
AI chat sites. This project models its decision logic as pure functions and
proves what it promises:

- the site registry and the hostname matcher (`Registry`, on top of `Strings`);
- the idempotent element binder, where the `data-key-changed` marker becomes a bound set and a per-element listener count (`Binder`);
- the three triggers that re-run the binder (`Session`, `Watcher`):
  - the initial scan;
  - the mutation observer callback;
  - the 250 ms rescan;
- the key listener's guard and branch (`KeySwap`);
- the textarea newline splice (`TextArea`);
- the send-button search with its Enter fallback, and the visibility test (`Send`).

The page is an oracle, `Page.Dom`:
- `query` stands for `document.querySelectorAll`;
- `matches` stands for `Element.matches`;
- `within` stands for `Element.querySelectorAll` on an added subtree.

`document.querySelector` for buttons is a function from selector to an
optional `Send.Button`. What the script does to the page is recorded as an
effect log (`Events.Effect`): suppression calls, dispatched events, `<br>`
insertion and clicks.

Some choices where the code is more precise than a prose description:
- `getSendButtonSelectors` returns `buttons || null`. An empty array is truthy, so only a missing list yields null. An empty list still falls back to the Enter redispatch, through the empty loop.
- `element.contentEditable` is kept as a string and tested for non-emptiness, as the code does. A real DOM always yields a non-empty value, so every non-`TEXTAREA` takes the rich-text path.
- `value.substring(...)` is modelled with JavaScript's clamping and swapping of indices (`Strings.Substring`). This makes the splice total. The caret is clamped to the new value, as the browser does.
- `bind & 1` and `bind & 2` are read as `bind % 2` and `bind / 2 % 2`. `Registry.BindMode` gives the two switches names, and the encoding round-trips for flags in `0..3`.

## Model

| member | source | states |
|---|---|---|
| Strings.Includes | src/chat-key-changer.js:129 | `hostname.includes(domain)`: a left-to-right scan for the domain; its meaning is stated by `Strings.IncludesIffOccurs` |
| Strings.IncludesIffOccurs | src/chat-key-changer.js:129 | `hostname.includes(domain)` holds exactly when the domain occurs at some index of the hostname |
| Strings.IncludesEmpty | src/chat-key-changer.js:129 | an empty domain string is included in every hostname |
| Strings.Substring | src/chat-key-changer.js:178 | `substring(a, b)` is the slice `s[a..b]` for in-range ordered indices, and its length is the distance between the clamped indices otherwise |
| Strings.SubstringFrom | src/chat-key-changer.js:178 | `substring(a)` is the suffix from `a`, of length `|s|` minus the clamped index |
| Registry.ScopeOf | src/chat-key-changer.js:151 | `bind & 1` read as the listener scope; `KeySwap.ListenerHostFor` and `Registry.EncodeDecodeBind` state its use and inverse |
| Registry.RichNewlineOf | src/chat-key-changer.js:184 | `bind & 2` read as the rich-text newline strategy; `KeySwap.RichTextNewline` and `Registry.EncodeDecodeBind` state its use and inverse |
| Registry.EncodeBind | src/chat-key-changer.js:151 | packing the two behaviour switches gives a flag in `0..3` |
| Registry.DecodeEncodeBind | src/chat-key-changer.js:184 | a mode survives packing and unpacking through bits 0 and 1 |
| Registry.EncodeDecodeBind | src/chat-key-changer.js:151 | every flag in `0..3` is the packing of the mode it decodes to |
| Registry.Sites | src/chat-key-changer.js:15-100 | the registry has twelve profiles, each with domains, inputs and buttons and a flag in `0..3`, and the service ids are pairwise distinct |
| Registry.RegistryBindModes | src/chat-key-changer.js:21-98 | only `claude` listens on the window, and only `notion` inserts a `<br>` |
| Registry.Matches | src/chat-key-changer.js:129 | `config.domains.some(domain => hostname.includes(domain))`: some domain of the profile occurs in the hostname |
| Registry.DetectFrom | src/chat-key-changer.js:128-134 | the scan returns the first matching position from its start, and returns none exactly when no later profile matches |
| Registry.DetectSite | src/chat-key-changer.js:127-135 | the detected profile is the earliest one in table order with a domain contained in the hostname, and null is returned exactly when no profile matches |
| Registry.MatchBoundsDetection | src/chat-key-changer.js:128-131 | once profile `i` matches, the detected profile sits at position `i` or earlier |
| Registry.ProfilesDistinct | src/chat-key-changer.js:15-100 | distinct table positions hold distinct profiles |
| Registry.EarlierProfileWins | src/chat-key-changer.js:128-131 | when two profiles match, the later one is never returned |
| Registry.DetectClaude | src/chat-key-changer.js:23-29 | the host `claude.ai` selects the `claude` profile |
| Registry.DetectShortGrokHost | src/chat-key-changer.js:72-78 | the host `x.ai` falls through the first eight profiles to `grok` |
| Binder.BindOne | src/chat-key-changer.js:140-143 | the `forEach` body: an unmarked element gets one listener and the marker; a marked element is left alone; `Binder.BindEach` states the effect over a whole result list |
| Binder.BindEach | src/chat-key-changer.js:139-144 | visiting the matched elements marks exactly them in addition, and each newly marked element gets one listener while every other keeps its count, even when an element is listed twice |
| Binder.ApplyKeySwapToSelector | src/chat-key-changer.js:136-145 | afterwards every element matching the selector is marked; nothing else is newly marked; already-marked elements get no new listener; well-formedness is kept (one listener exactly on marked elements) |
| Binder.BindEachMarkedNoop | src/chat-key-changer.js:140 | visiting only marked elements changes nothing |
| Binder.ApplyIdempotent | src/chat-key-changer.js:136-145 | repeating `applyKeySwapToSelector` on an unchanged document changes nothing |
| Binder.ApplyTimesIsOnce | src/chat-key-changer.js:136-145 | `n >= 1` runs on an unchanged document equal one run, so a well-formed state keeps at most one listener per element |
| Binder.BindAll | src/chat-key-changer.js:120-122 | scanning all input selectors marks exactly the elements some selector matches, adding one listener to each newly marked element only |
| Binder.BindAllMarkedNoop | src/chat-key-changer.js:313-315 | a full scan in which every matched element is already marked changes nothing |
| Binder.BindAllIdempotent | src/chat-key-changer.js:313-315 | a second full scan of an unchanged document changes nothing |
| Watcher.Triggered | src/chat-key-changer.js:284-289 | an added element re-runs the binder for a selector when it matches it or its subtree holds a match |
| Watcher.ObserveSelector | src/chat-key-changer.js:284-291 | for one added element and one selector, the selector's matches become marked exactly when the element matches it or its subtree holds a match |
| Watcher.ObserveElement | src/chat-key-changer.js:283-292 | for one added element, exactly the elements of selectors it matches directly or in its subtree become marked, with the binder's listener accounting |
| Watcher.ObserveNodes | src/chat-key-changer.js:281-294 | over the added nodes, only element nodes rebind, and exactly the elements of their triggered selectors become marked |
| Watcher.ObserveBatch | src/chat-key-changer.js:279-296 | over a batch, only `childList` records rebind, and exactly the elements of the triggered selectors become marked |
| Watcher.BatchWithoutElementsIsNoop | src/chat-key-changer.js:280-282 | a batch that adds no element nodes binds nothing |
| Watcher.NodesWithoutElementsAreNoop | src/chat-key-changer.js:282 | added text or other non-element nodes bind nothing |
| Session.SetupKeySwap | src/chat-key-changer.js:110-125 | the session's profile is the detected one; with no profile nothing is bound and no observer starts; otherwise exactly the matched inputs are bound and the observer holds the input selectors |
| Session.RescanTick | src/chat-key-changer.js:309-317 | a tick is the identity without a profile; otherwise it marks every element an input selector matches, adds no listener to an already bound element and keeps the session consistent |
| Session.OnMutations | src/chat-key-changer.js:278-302 | with no observer a batch does nothing; otherwise it marks exactly the elements of the triggered selectors and keeps the session consistent |
| Session.UnmatchedHostIsInert | src/chat-key-changer.js:114-116 | on an unmatched host nothing is bound, no observer exists, and every later tick or batch is a no-op |
| Session.InsertedInputBoundByBatch | src/chat-key-changer.js:283-291 | an input inserted after load, directly or inside an added subtree, is bound by the batch that reports it, provided it is still in the document when the callback runs (the model's one-document coherence) |
| Session.RescanBindsEveryInput | src/chat-key-changer.js:310-315 | after a tick every element matched by an input selector is bound |
| Session.RescansNeverRebind | src/chat-key-changer.js:140-142 | however many ticks run over a changing document, an already bound element keeps exactly one listener |
| Session.RescanIdempotent | src/chat-key-changer.js:309-317 | a second tick over an unchanged document changes nothing |
| Events.SyntheticEnter | src/chat-key-changer.js:203-211 | a script-built Enter keydown is untrusted and carries the given target and Shift state |
| TextArea.SpliceNewline | src/chat-key-changer.js:173-180 | for a valid selection, the new value is the text before the selection, a newline, then the text after it; its length is the old length minus the selection plus one; both selection ends sit right after the newline |
| TextArea.SpliceThenDeleteRestores | src/chat-key-changer.js:178-180 | with a collapsed caret, one Backspace after the splice gives back the original value and caret |
| TextArea.SpliceKeepsSurroundings | src/chat-key-changer.js:178 | the text before the selection and the text after it are kept around the inserted newline |
| TextArea.SpliceExample | src/chat-key-changer.js:173-180 | `"ab|cd"` becomes `"ab\ncd"` with the caret after the newline |
| Send.IsButtonVisible | src/chat-key-changer.js:248-255 | the five visibility tests, `opacity` compared as text; `Send.HiddenButtonNeverClicked` states that failing any one excludes a button |
| Send.Qualifies | src/chat-key-changer.js:235 | a found button qualifies when it exists, is not disabled and is visible |
| Send.GetSendButtonSelectors | src/chat-key-changer.js:244-246 | the selector list is present exactly when there is a profile, and it is that profile's button list |
| Send.FirstQualifying | src/chat-key-changer.js:233-239 | the loop stops at the first selector whose button exists, is enabled and is visible, and finds nothing exactly when none qualifies |
| Send.ResolveSend | src/chat-key-changer.js:225-242 | a click targets the first qualifying button in selector order; the fallback happens exactly when the list is null or no button qualifies |
| Send.DispatchOriginalEnterEvent | src/chat-key-changer.js:260-272 | the redispatched event is an untrusted Enter at the element, with Shift off unless asked |
| Send.SimulateSendAction | src/chat-key-changer.js:225-242 | exactly one effect results: a click on the resolved button, or one plain Enter redispatched at the element |
| Send.HiddenButtonNeverClicked | src/chat-key-changer.js:248-255 | a button failing any one of the five visibility tests is never the one clicked |
| Send.OpacityIsComparedAsText | src/chat-key-changer.js:252 | `"0.0"`, a zero opacity not spelled `"0"`, does not hide a button |
| Send.FirstSelectorButtonClicked | src/chat-key-changer.js:233-237 | an enabled visible button behind the first selector is clicked, whatever the later selectors hold |
| KeySwap.ListenerHostFor | src/chat-key-changer.js:151 | the listener goes on the window exactly when bit 0 of `bind` is set, and on the element otherwise |
| KeySwap.RichTextNewline | src/chat-key-changer.js:184-215 | with bit 1 set the log is the `<br>` and then the `input` event, with no `beforeinput` and no `keydown`; with bit 1 clear it is three effects: a `beforeinput`, one script-built untrusted Shift+Enter `keydown` and the `input` event, and no `<br>`; both end with exactly one `input` event and click nothing |
| KeySwap.SimulateEnter | src/chat-key-changer.js:171-220 | a newline in a `TEXTAREA` is the splice plus one `input` event; a rich-text newline is the bit-1 choice of `KeySwap.RichTextNewline` (one `input` event, no click); a send leaves the element and logs the send action |
| KeySwap.Decide | src/chat-key-changer.js:154-163 | the listener guard and branch; `KeySwap.ShiftSelectsAction` states both directions |
| KeySwap.Intercepted | src/chat-key-changer.js:155-157 | the three suppression calls come first and the action's effects follow unchanged |
| KeySwap.OnKeyDown | src/chat-key-changer.js:153-165 | an ignored event has no effect; an acted-on event starts with exactly the three suppression calls whatever the modifiers; a send logs exactly the suppression calls followed by the send action (a click on the first qualifying button, or one plain untrusted Enter); a textarea newline is the splice, logged as exactly the suppression calls followed by one `input` event; a rich-text newline logs exactly the suppression calls followed by `KeySwap.RichTextNewline` (one `input` event, a `<br>` exactly when bit 1 is set, the synthetic Shift+Enter otherwise); a newline clicks nothing; every dispatched keydown is untrusted |
| KeySwap.DispatchedKeyDownsIgnored | src/chat-key-changer.js:203-212 | no keydown the handler dispatches is acted on by any of the script's listeners, so there is no re-entry |
| KeySwap.ShiftSelectsAction | src/chat-key-changer.js:154-163 | the handler acts exactly on a trusted Enter aimed at its element, and then sends exactly when Shift is held |
| KeySwap.OneActionPerPress | src/chat-key-changer.js:140-154 | in a well-formed binder at most one bound element, the event's target, acts on a press, through its single listener |
| KeySwap.PlainEnterInTextarea | src/chat-key-changer.js:173-182 | a genuine plain Enter in `"ab|cd"` yields `"ab\ncd"` with the caret after the newline, one `input` event and no click |
| KeySwap.ShiftEnterClicksFirstButton | src/chat-key-changer.js:159-160 | a genuine Shift+Enter with a clickable first button is suppressed and then clicks that button once, leaving the content unchanged |
| KeySwap.ShiftEnterFallsBack | src/chat-key-changer.js:241 | a genuine Shift+Enter with no clickable button redispatches one plain untrusted Enter, which the listener ignores |

## Left out

- CSS selector matching (`querySelectorAll`, `querySelector`, `matches`): the browser's engine, an oracle here.
- Listener registration, capture order and `dispatchEvent` delivery: the effect log records what is dispatched, not how the browser routes it.
- `MutationObserver` registration, the `setInterval(…, 250)` timing and the `load` bootstrap: host scheduling. Only the transitions each trigger performs are modelled.
- The selection and range handling of the `<br>` insertion and what the page does with the synthetic Shift+Enter: their effect depends on the host page. Only the effects are logged.
- `getComputedStyle` and layout: the style and offsets enter as an input record.
- `window.location.hostname` is a parameter of `Session.SetupKeySwap`. So is the registry, which is `Registry.Sites()` on a real page.
- The selector strings of the registry are kept verbatim but only used as opaque identifiers.
- Binder.BindState: the marker is kept as a set of element identities, while the page sees it as the `data-key-changed` attribute. A page that copies a bound input with its attributes (`cloneNode`, `innerHTML`) makes an element that carries the marker but no listener, and every later scan skips it. A page that strips the attribute gets a second listener at the next scan. `Binder.WellFormed` and `Session.Consistent` (one listener exactly on marked elements) therefore assume the page leaves the attribute alone; `Session.RescanBindsEveryInput` and `Session.RescansNeverRebind` rely on that.
- Session.InsertedInputBoundByBatch: a node that is added and then detached before the observer callback runs still matches the selector, but the document-wide re-query does not find it, so it stays unbound. `Watcher.ObserveBatch` models that exactly; the lemma assumes `Page.Coherent`, under which every reported node is still in the document.
- KeySwap.RichTextNewline: `selection.getRangeAt(0)` throws when the selection holds no range. The listener then stops after the suppression calls, with no `<br>` and no `input` event. The model assumes a range exists, so its "one `input` event" holds only then.
- TextArea.SpliceNewline: `selectionStart` and `substring` count UTF-16 code units, while a Dafny string is indexed by Unicode scalar values. Text with characters outside the Basic Multilingual Plane, and selection boundaries inside a surrogate pair, have no counterpart in the model.
- Rich-text element contents are not modelled, so `KeySwap.SimulateEnter` leaves a non-`TEXTAREA` element value unchanged and only logs the effects.

=== FILE: binder.dfy ===
/**
 The element binder (`applyKeySwapToSelector`). The `data-key-changed` marker
 becomes the `bound` set, and every `attachKeySwapListener` call adds one to
 the element's listener count.
 */
module Binder {
  import opened Page

  datatype BindState = BindState(bound: set<ElemId>, listeners: map<ElemId, nat>)

  /** The state before anything has been bound. */
  const Empty := BindState({}, map[])

  /** Number of key listeners attached for element `e`. */
  function Listeners(st: BindState, e: ElemId): nat {
    if e in st.listeners then st.listeners[e] else 0
  }

  /** Every marked element carries exactly one listener and no other element carries any. */
  ghost predicate WellFormed(st: BindState) {
    forall e :: Listeners(st, e) == if e in st.bound then 1 else 0
  }

  /**
   `r` extends `st` by marking new elements, each newly marked element getting
   exactly one new listener and every other element keeping its count.
   */
  ghost predicate Grows(st: BindState, r: BindState) {
    && st.bound <= r.bound
    && forall e :: Listeners(r, e) == Listeners(st, e) + (if e in r.bound && e !in st.bound then 1 else 0)
  }

  /** The body of the `forEach`: attach and mark an element that is not yet marked. */
  function BindOne(st: BindState, e: ElemId): BindState {
    if e in st.bound then st
    else BindState(st.bound + {e}, st.listeners[e := Listeners(st, e) + 1])
  }

  /** Visits `elems` in document order, binding each unmarked element. */
  function BindEach(st: BindState, elems: seq<ElemId>): (r: BindState)
    ensures r.bound == st.bound + set e | e in elems
    ensures Grows(st, r)
    decreases |elems|
  {
    if |elems| == 0 then st
    else BindEach(BindOne(st, elems[0]), elems[1..])
  }

  /** `applyKeySwapToSelector(selector)`. */
  function ApplyKeySwapToSelector(st: BindState, dom: Dom, s: Selector): (r: BindState)
    ensures forall e :: e in dom.query(s) ==> e in r.bound
    ensures forall e :: e in r.bound ==> e in st.bound || e in dom.query(s)
    ensures forall e :: e in st.bound ==> Listeners(r, e) == Listeners(st, e)
    ensures Grows(st, r)
    ensures WellFormed(st) ==> WellFormed(r)
  {
    BindEach(st, dom.query(s))
  }

  /** Visiting elements that are all marked already changes nothing. */
  lemma {:induction false} BindEachMarkedNoop(st: BindState, elems: seq<ElemId>)
    requires forall e :: e in elems ==> e in st.bound
    ensures BindEach(st, elems) == st
    decreases |elems|
  {
    if |elems| > 0 {
      BindEachMarkedNoop(st, elems[1..]);
    }
  }

  /** Repeating `applyKeySwapToSelector` on an unchanged document changes nothing. */
  lemma ApplyIdempotent(st: BindState, dom: Dom, s: Selector)
    ensures ApplyKeySwapToSelector(ApplyKeySwapToSelector(st, dom, s), dom, s)
            == ApplyKeySwapToSelector(st, dom, s)
  {
    BindEachMarkedNoop(ApplyKeySwapToSelector(st, dom, s), dom.query(s));
  }

  /** `applyKeySwapToSelector` run `n` times in a row. */
  function ApplyTimes(st: BindState, dom: Dom, s: Selector, n: nat): BindState
    decreases n
  {
    if n == 0 then st else ApplyTimes(ApplyKeySwapToSelector(st, dom, s), dom, s, n - 1)
  }

  /**
   However many times the binder runs over an unchanged document, the result
   is that of one run; in particular each element gets at most one listener.
   */
  lemma {:induction false} ApplyTimesIsOnce(st: BindState, dom: Dom, s: Selector, n: nat)
    requires n >= 1
    ensures ApplyTimes(st, dom, s, n) == ApplyKeySwapToSelector(st, dom, s)
    ensures WellFormed(st) ==> forall e :: Listeners(ApplyTimes(st, dom, s, n), e) <= 1
    decreases n
  {
    if n > 1 {
      ApplyIdempotent(st, dom, s);
      ApplyTimesIsOnce(ApplyKeySwapToSelector(st, dom, s), dom, s, n - 1);
    }
  }

  /** Some selector of `sels` matches `e` in the document. */
  ghost predicate Covered(dom: Dom, sels: seq<Selector>, e: ElemId) {
    exists i :: 0 <= i < |sels| && e in dom.query(sels[i])
  }

  /** `selectors.forEach(selector => this.applyKeySwapToSelector(selector))`. */
  function BindAll(st: BindState, dom: Dom, sels: seq<Selector>): (r: BindState)
    ensures forall e :: e in r.bound <==> e in st.bound || Covered(dom, sels, e)
    ensures Grows(st, r)
    decreases |sels|
  {
    if |sels| == 0 then st
    else
      var r := BindAll(ApplyKeySwapToSelector(st, dom, sels[0]), dom, sels[1..]);
      assert forall e :: Covered(dom, sels, e) <==> e in dom.query(sels[0]) || Covered(dom, sels[1..], e) by {
        forall e ensures Covered(dom, sels, e) <==> e in dom.query(sels[0]) || Covered(dom, sels[1..], e) {
          if Covered(dom, sels, e) && e !in dom.query(sels[0]) {
            var i :| 0 <= i < |sels| && e in dom.query(sels[i]);
            assert sels[1..][i - 1] == sels[i];
          }
          if Covered(dom, sels[1..], e) {
            var i :| 0 <= i < |sels| - 1 && e in dom.query(sels[1..][i]);
            assert sels[i + 1] == sels[1..][i];
          }
        }
      }
      r
  }

  /** When every covered element is marked already, a full scan changes nothing. */
  lemma {:induction false} BindAllMarkedNoop(st: BindState, dom: Dom, sels: seq<Selector>)
    requires forall e :: Covered(dom, sels, e) ==> e in st.bound
    ensures BindAll(st, dom, sels) == st
    decreases |sels|
  {
    if |sels| > 0 {
      forall e | e in dom.query(sels[0]) ensures e in st.bound {
        assert Covered(dom, sels, e);
      }
      BindEachMarkedNoop(st, dom.query(sels[0]));
      forall e | Covered(dom, sels[1..], e) ensures e in st.bound {
        var i :| 0 <= i < |sels| - 1 && e in dom.query(sels[1..][i]);
        assert Covered(dom, sels, e) by { assert sels[i + 1] == sels[1..][i]; }
      }
      BindAllMarkedNoop(st, dom, sels[1..]);
    }
  }

  /** A second full scan of an unchanged document changes nothing. */
  lemma BindAllIdempotent(st: BindState, dom: Dom, sels: seq<Selector>)
    ensures BindAll(BindAll(st, dom, sels), dom, sels) == BindAll(st, dom, sels)
  {
    BindAllMarkedNoop(BindAll(st, dom, sels), dom, sels);
  }
}

=== FILE: events.dfy ===
/**
 Key events as the listener sees them, and the log of observable effects the
 content script produces on the page (event suppression, dispatched events,
 DOM edits and clicks).
 */
module Events {
  import opened Page

  /** The fields of a `keydown` event the script reads or sets. */
  datatype KeyEvent = KeyEvent(
    key: string,
    code: string,
    keyCode: nat,
    target: ElemId,
    isTrusted: bool,
    shiftKey: bool)

  /**
   A `KeyboardEvent('keydown', { key: 'Enter', code: 'Enter', keyCode: 13, ... })`
   built by the script and dispatched at `target`. Script-built events are
   never trusted.
   */
  function SyntheticEnter(target: ElemId, shiftKey: bool): (ev: KeyEvent)
    ensures !ev.isTrusted && ev.key == "Enter" && ev.target == target && ev.shiftKey == shiftKey
  {
    KeyEvent("Enter", "Enter", 13, target, false, shiftKey)
  }

  datatype Effect =
    | PreventDefault
    | StopPropagation
    | StopImmediatePropagation
      /** `new Event('input', { bubbles: true })` */
    | DispatchInput(target: ElemId)
      /** `new InputEvent('beforeinput', { data: '', inputType: 'insertText' })` */
    | DispatchBeforeInput(target: ElemId)
    | DispatchKeyDown(event: KeyEvent)
      /** a `<br>` inserted at the caret, the selection collapsed after it */
    | InsertLineBreak(target: ElemId)
    | Click(button: ElemId)

  /** The three calls that keep the page from seeing an intercepted key press. */
  const Suppression: seq<Effect> := [PreventDefault, StopPropagation, StopImmediatePropagation]

  /** Number of effects in `log` satisfying `p`. */
  function Count(log: seq<Effect>, p: Effect -> bool): (n: nat)
    ensures n <= |log|
    ensures n == 0 <==> forall i :: 0 <= i < |log| ==> !p(log[i])
    decreases |log|
  {
    if |log| == 0 then 0 else (if p(log[0]) then 1 else 0) + Count(log[1..], p)
  }

  lemma {:induction false} CountAppend(a: seq<Effect>, b: seq<Effect>, p: Effect -> bool)
    ensures Count(a + b, p) == Count(a, p) + Count(b, p)
    decreases |a|
  {
    if |a| > 0 {
      assert (a + b)[1..] == a[1..] + b;
      CountAppend(a[1..], b, p);
    } else {
      assert a + b == b;
    }
  }

  predicate IsInput(e: Effect) { e.DispatchInput? }
  predicate IsClick(e: Effect) { e.Click? }
  predicate IsKeyDown(e: Effect) { e.DispatchKeyDown? }
  predicate IsSuppression(e: Effect) { e.PreventDefault? || e.StopPropagation? || e.StopImmediatePropagation? }
}

=== FILE: keyswap.dfy ===
/**
 The listener `attachKeySwapListener` installs and the `simulateEnter`
 procedure it calls: a genuine Enter at the bound element is suppressed, then
 Shift+Enter sends and a plain Enter inserts a newline.
 */
module KeySwap {
  import opened Options
  import opened Registry
  import opened Page
  import opened Events
  import opened TextArea
  import opened Send
  import opened Binder

  /** The input element a listener is bound to. `text` is read only for a `TEXTAREA`. */
  datatype Element = Element(id: ElemId, tagName: string, contentEditable: string, text: TextArea)

  /** Where `addEventListener` is called: on the window when bit 0 of `bind` is set. */
  datatype ListenerHost = OnWindow | OnElement(id: ElemId)

  function ListenerHostFor(bind: nat, el: ElemId): (h: ListenerHost)
    ensures h == OnWindow <==> ScopeOf(bind) == WindowScope
    ensures h.OnElement? ==> h.id == el
  {
    if ScopeOf(bind) == WindowScope then OnWindow else OnElement(el)
  }

  datatype Decision = Ignore | Newline | SendMessage

  /** The guard and branch of the listener bound to `element`. */
  function Decide(ev: KeyEvent, element: ElemId): Decision {
    if ev.key == "Enter" && ev.target == element && ev.isTrusted then
      (if ev.shiftKey then SendMessage else Newline)
    else Ignore
  }

  /** The element after the handler ran, and what the handler did, in order. */
  datatype Outcome = Outcome(element: Element, log: seq<Effect>)

  /** The rich-text newline: a `<br>`, or a script-built Shift+Enter for the page to handle. */
  function RichTextNewline(bind: nat, id: ElemId): (log: seq<Effect>)
    ensures |log| > 0 && log[|log| - 1] == DispatchInput(id)
    ensures Count(log, IsInput) == 1 && Count(log, IsClick) == 0
    ensures RichNewlineOf(bind) == InsertBreak <==> InsertLineBreak(id) in log
    ensures RichNewlineOf(bind) == SyntheticShiftEnter ==>
              DispatchBeforeInput(id) in log && DispatchKeyDown(SyntheticEnter(id, true)) in log
    ensures RichNewlineOf(bind) == InsertBreak ==> DispatchBeforeInput(id) !in log
    ensures Count(log, IsKeyDown) == (if RichNewlineOf(bind) == SyntheticShiftEnter then 1 else 0)
    ensures |log| == (if RichNewlineOf(bind) == InsertBreak then 2 else 3)
    ensures Count(log, IsSuppression) == 0
    ensures forall i :: 0 <= i < |log| && log[i].DispatchKeyDown? ==>
              log[i].event == SyntheticEnter(id, true)
  {
    var body := if RichNewlineOf(bind) == InsertBreak then [InsertLineBreak(id)]
                else [DispatchBeforeInput(id), DispatchKeyDown(SyntheticEnter(id, true))];
    CountAppend(body, [DispatchInput(id)], IsInput);
    CountAppend(body, [DispatchInput(id)], IsClick);
    CountAppend(body, [DispatchInput(id)], IsSuppression);
    CountAppend(body, [DispatchInput(id)], IsKeyDown);
    body + [DispatchInput(id)]
  }

  /** `simulateEnter(element, addNewLine)`. */
  function SimulateEnter(bind: nat, el: Element, addNewLine: bool, selectors: Option<seq<Selector>>,
                         query: Selector -> Option<Button>): (r: Outcome)
    ensures r.element.id == el.id && r.element.tagName == el.tagName
    ensures !addNewLine || el.tagName != "TEXTAREA" ==> r.element == el
    ensures addNewLine && el.tagName == "TEXTAREA" ==>
              r.element.text == SpliceNewline(el.text) && r.log == [DispatchInput(el.id)]
    ensures addNewLine && (el.tagName == "TEXTAREA" || el.contentEditable != "") ==>
              Count(r.log, IsInput) == 1 && Count(r.log, IsClick) == 0
    ensures addNewLine && el.tagName != "TEXTAREA" && el.contentEditable != "" ==>
              r.log == RichTextNewline(bind, el.id)
    ensures addNewLine && el.tagName != "TEXTAREA" && el.contentEditable == "" ==> r.log == []
    ensures !addNewLine ==> r.log == SimulateSendAction(el.id, selectors, query)
    ensures Count(r.log, IsSuppression) == 0
    ensures ScriptBuiltKeyDowns(r.log)
  {
    if addNewLine then
      if el.tagName == "TEXTAREA" then
        Outcome(el.(text := SpliceNewline(el.text)), [DispatchInput(el.id)])
      else if el.contentEditable != "" then
        Outcome(el, RichTextNewline(bind, el.id))
      else
        Outcome(el, [])
    else
      Outcome(el, SimulateSendAction(el.id, selectors, query))
  }

  /** Every `keydown` in `log` was built by the script, so none is trusted. */
  predicate ScriptBuiltKeyDowns(log: seq<Effect>) {
    forall i :: 0 <= i < |log| && log[i].DispatchKeyDown? ==> !log[i].event.isTrusted
  }

  /** The three suppression calls, then what the chosen action did. */
  function Intercepted(log: seq<Effect>): (r: seq<Effect>)
    ensures |r| == |log| + 3 && r[..3] == Suppression && r[3..] == log
    ensures Count(r, IsSuppression) == 3 + Count(log, IsSuppression)
    ensures Count(r, IsClick) == Count(log, IsClick)
    ensures Count(r, IsInput) == Count(log, IsInput)
    ensures Count(r, IsKeyDown) == Count(log, IsKeyDown)
    ensures ScriptBuiltKeyDowns(log) ==> ScriptBuiltKeyDowns(r)
    ensures forall id :: InsertLineBreak(id) in r <==> InsertLineBreak(id) in log
  {
    CountAppend(Suppression, log, IsSuppression);
    CountAppend(Suppression, log, IsClick);
    CountAppend(Suppression, log, IsInput);
    CountAppend(Suppression, log, IsKeyDown);
    Suppression + log
  }

  /** The listener bound to `el` for the active profile `site`, handling one `keydown`. */
  function OnKeyDown(site: Profile, el: Element, ev: KeyEvent, query: Selector -> Option<Button>): (r: Outcome)
    ensures Decide(ev, el.id) == Ignore ==> r == Outcome(el, [])
    ensures Decide(ev, el.id) != Ignore ==>
              |r.log| >= 3 && r.log[..3] == Suppression && Count(r.log, IsSuppression) == 3
    ensures Decide(ev, el.id) == SendMessage ==>
              r.element == el && Count(r.log, IsClick) + Count(r.log, IsKeyDown) == 1
    ensures Decide(ev, el.id) == Newline ==> Count(r.log, IsClick) == 0
    ensures Decide(ev, el.id) == Newline && el.tagName == "TEXTAREA" ==>
              r.element.text == SpliceNewline(el.text) && Count(r.log, IsInput) == 1
    ensures Decide(ev, el.id) == Newline && el.tagName == "TEXTAREA" ==>
              r.log == Suppression + [DispatchInput(el.id)]
    ensures Decide(ev, el.id) == Newline && el.tagName != "TEXTAREA" ==> r.element == el
    ensures Decide(ev, el.id) == Newline && el.tagName != "TEXTAREA" && el.contentEditable != "" ==>
              && Count(r.log, IsInput) == 1
              && (InsertLineBreak(el.id) in r.log <==> RichNewlineOf(site.bind) == InsertBreak)
    ensures Decide(ev, el.id) == Newline && el.tagName != "TEXTAREA" && el.contentEditable != "" ==>
              r.log == Suppression + RichTextNewline(site.bind, el.id)
    ensures Decide(ev, el.id) == SendMessage ==>
              r.log == Suppression + SimulateSendAction(el.id, Some(site.buttons), query)
    ensures ScriptBuiltKeyDowns(r.log)
  {
    match Decide(ev, el.id)
    case Ignore => Outcome(el, [])
    case Newline =>
      var o := SimulateEnter(site.bind, el, true, GetSendButtonSelectors(Some(site)), query);
      Outcome(o.element, Intercepted(o.log))
    case SendMessage =>
      var o := SimulateEnter(site.bind, el, false, GetSendButtonSelectors(Some(site)), query);
      Outcome(o.element, Intercepted(o.log))
  }

  /**
   No event the handler dispatches is acted on by any listener of the script,
   so the handler never re-enters itself.
   */
  lemma DispatchedKeyDownsIgnored(site: Profile, el: Element, ev: KeyEvent,
                                  query: Selector -> Option<Button>, other: ElemId)
    ensures var log := OnKeyDown(site, el, ev, query).log;
            forall i :: 0 <= i < |log| && log[i].DispatchKeyDown? ==> Decide(log[i].event, other) == Ignore
  {
  }

  /**
   The listener acts exactly on a trusted Enter aimed at its own element; then
   Shift selects the send action and its absence the newline.
   */
  lemma ShiftSelectsAction(ev: KeyEvent, element: ElemId)
    ensures Decide(ev, element) != Ignore <==> ev.key == "Enter" && ev.target == element && ev.isTrusted
    ensures Decide(ev, element) != Ignore ==> (Decide(ev, element) == SendMessage <==> ev.shiftKey)
  {
  }

  /** The bound elements whose listener acts on `ev`. */
  function ActingListeners(st: BindState, ev: KeyEvent): set<ElemId> {
    set e | e in st.bound && Decide(ev, e) != Ignore
  }

  /**
   At most one bound element acts on a key press, through its single listener:
   one genuine Enter gives one newline or one send, never two.
   */
  lemma {:induction false} OneActionPerPress(st: BindState, ev: KeyEvent)
    requires WellFormed(st)
    ensures ActingListeners(st, ev) <= {ev.target}
    ensures |ActingListeners(st, ev)| <= 1
    ensures forall e :: e in ActingListeners(st, ev) ==> Listeners(st, e) == 1
  {
    var a := ActingListeners(st, ev);
    assert a <= {ev.target};
    if a != {} {
      assert a == {ev.target};
    }
  }

  /** A `TEXTAREA` holding `"ab|cd"` and a genuine plain Enter: `"ab\ncd"`, caret after the newline, no click. */
  lemma PlainEnterInTextarea(site: Profile, id: ElemId, query: Selector -> Option<Button>)
    ensures var el := Element(id, "TEXTAREA", "inherit", TextArea("abcd", 2, 2));
            var r := OnKeyDown(site, el, KeyEvent("Enter", "Enter", 13, id, true, false), query);
            && r.element.text == TextArea("ab\ncd", 3, 3)
            && r.log == Suppression + [DispatchInput(id)]
            && Count(r.log, IsClick) == 0
  {
    SpliceExample();
  }

  /** A genuine Shift+Enter with a clickable button behind the first selector clicks it once. */
  lemma ShiftEnterClicksFirstButton(site: Profile, el: Element, ev: KeyEvent,
                                    query: Selector -> Option<Button>, b: Button)
    requires Decide(ev, el.id) == SendMessage
    requires |site.buttons| > 0 && query(site.buttons[0]) == Some(b) && !b.disabled && IsButtonVisible(b)
    ensures OnKeyDown(site, el, ev, query) == Outcome(el, Suppression + [Click(b.id)])
  {
    FirstSelectorButtonClicked(site.buttons, query, b);
  }

  /**
   A genuine Shift+Enter with no clickable button redispatches one plain,
   untrusted Enter, which the listener then ignores.
   */
  lemma ShiftEnterFallsBack(site: Profile, el: Element, ev: KeyEvent, query: Selector -> Option<Button>)
    requires Decide(ev, el.id) == SendMessage
    requires forall j :: 0 <= j < |site.buttons| ==> !Qualifies(query(site.buttons[j]))
    ensures OnKeyDown(site, el, ev, query) == Outcome(el, Suppression + [DispatchKeyDown(SyntheticEnter(el.id, false))])
    ensures Decide(SyntheticEnter(el.id, false), el.id) == Ignore
  {
  }
}

=== FILE: options.dfy ===
/** The `null`-or-value results of the content script (a matched profile, a found button). */
module Options {

  datatype Option<+T> = None | Some(value: T)
}

=== FILE: page.dfy ===
/**
 The host page as the content script sees it. The browser's selector engine is
 an oracle: `query` stands for `document.querySelectorAll`, `matches` for
 `Element.matches` and `within` for `Element.querySelectorAll` on a subtree.
 */
module Page {

  /** Identity of a DOM element. */
  type ElemId = nat

  /** A CSS selector, treated as an opaque identifier. */
  type Selector = string

  datatype Dom = Dom(
    query: Selector -> seq<ElemId>,
    matches: (ElemId, Selector) -> bool,
    within: (ElemId, Selector) -> seq<ElemId>)

  /**
   The three oracles describe one document: an element that matches a
   selector, or lies in a subtree's matches, is among the document's matches.
   */
  ghost predicate Coherent(dom: Dom) {
    && (forall e, s :: dom.matches(e, s) ==> e in dom.query(s))
    && (forall e, s, c :: c in dom.within(e, s) ==> c in dom.query(s))
  }

  /** `Node.nodeType`, reduced to the distinction the mutation callback makes. */
  datatype NodeKind = ElementNode | TextNode | OtherNode

  datatype Node = Node(kind: NodeKind, id: ElemId)

  /** `MutationRecord.type`. */
  datatype MutationKind = ChildList | Attributes | CharacterData

  /** One `MutationRecord`: only the kind and the added nodes are read. */
  datatype MutationRecord = MutationRecord(kind: MutationKind, added: seq<Node>)
}

=== FILE: registry.dfy ===
/**
 The site profile registry (the `siteConfigs` table) and the hostname matcher
 (`detectSite`). Selector strings are kept verbatim but are treated as opaque
 identifiers; their meaning belongs to the browser's selector engine.
 */
module Registry {
  import opened Options
  import opened Strings
  import opened Page

  /** Listener scope, chosen by bit 0 of `bind`. */
  datatype Scope = ElementScope | WindowScope

  /** Newline strategy for rich-text inputs, chosen by bit 1 of `bind`. */
  datatype RichNewline = SyntheticShiftEnter | InsertBreak

  /** The two independent behaviour switches packed into the `bind` flag. */
  datatype BindMode = BindMode(scope: Scope, richNewline: RichNewline)

  /** One entry of the registry. */
  datatype Profile = Profile(
    service: string,
    domains: seq<string>,
    inputs: seq<Selector>,
    buttons: seq<Selector>,
    bind: nat)

  /** `bind & 1`, read as the listener scope. */
  function ScopeOf(bind: nat): Scope {
    if bind % 2 == 1 then WindowScope else ElementScope
  }

  /** `bind & 2`, read as the rich-text newline strategy. */
  function RichNewlineOf(bind: nat): RichNewline {
    if (bind / 2) % 2 == 1 then InsertBreak else SyntheticShiftEnter
  }

  /** Reads both switches out of a `bind` flag. */
  function DecodeBind(bind: nat): BindMode {
    BindMode(ScopeOf(bind), RichNewlineOf(bind))
  }

  /** Packs both switches into a flag in `0..3`. */
  function EncodeBind(m: BindMode): (b: nat)
    ensures b < 4
  {
    (if m.scope == WindowScope then 1 else 0) + (if m.richNewline == InsertBreak then 2 else 0)
  }

  /** Every mode survives packing and unpacking. */
  lemma DecodeEncodeBind(m: BindMode)
    ensures DecodeBind(EncodeBind(m)) == m
  {
  }

  /** Every flag in `0..3` is the packing of the mode it decodes to. */
  lemma EncodeDecodeBind(b: nat)
    requires b < 4
    ensures EncodeBind(DecodeBind(b)) == b
  {
  }

  /** A registry entry that the content script can use. */
  ghost predicate ValidProfile(p: Profile) {
    && |p.domains| > 0
    && |p.inputs| > 0
    && |p.buttons| > 0
    && p.bind < 4
  }

  const ChatGpt: Profile := Profile("chatgpt", ["openai.com", "chatgpt.com"],
        ["#prompt-textarea", "textarea[data-id=\"root\"]", "textarea[data-testid=\"textbox\"]"],
        ["button[data-testid=\"send-button\"]", "[data-testid=\"fruitjuice-send-button\"]",
         "button[aria-label*=\"Send message\"]", "form button[type=\"submit\"]"], 0)
  const Claude: Profile := Profile("claude", ["claude.ai"],
        ["div[contenteditable=\"true\"]"],
        ["div[type=button] + div button"], 1)
  const Canva: Profile := Profile("canva", ["canva.com"],
        ["textarea"],
        ["button[aria-label*=\"Generate\"]", "button[type=\"submit\"]", "button:has(svg[viewBox*=\"send\"])"], 0)
  const GitHub: Profile := Profile("github", ["github.com"],
        ["#copilot-chat-textarea"],
        ["[class^=\"ChatInput-module__toolbarRight\"] > button"], 0)
  const MicrosoftCopilot: Profile := Profile("microsoftCopilot", ["copilot.microsoft.com"],
        ["textarea"],
        ["button[data-testid=\"submit-button\"]"], 0)
  const Gemini: Profile := Profile("gemini", ["gemini.google.com"],
        [".ql-editor"],
        ["button.submit"], 0)
  const Poe: Profile := Profile("poe", ["poe.com"],
        ["textarea"],
        ["button[data-button-send=\"true\"]"], 0)
  const Genspark: Profile := Profile("genspark", ["genspark.ai"],
        ["textarea"],
        [".enter-icon"], 0)
  const Grok: Profile := Profile("grok", ["grok.com", "x.ai"],
        ["textarea"],
        ["button[type=\"submit\"][aria-label]"], 0)
  const Perplexity: Profile := Profile("perplexity", ["perplexity.ai"],
        ["div[contenteditable=\"true\"]", "textarea"],
        ["[data-testid=\"submit-button\"]"], 0)
  const DeepSeek: Profile := Profile("deepseek", ["deepseek.com"],
        ["#chat-input"],
        ["[type=\"file\"] + [role=\"button\"]"], 0)
  const Notion: Profile := Profile("notion", ["notion.so"],
        [".notion-assistant-writer-ui div[contenteditable=\"true\"]"],
        [".notion-assistant-writer-ui [role=\"button\"]:has(.sendArrow)"], 2)

  /** The twelve supported services, in the table's insertion order. */
  function Sites(): (r: seq<Profile>)
    ensures |r| == 12
    ensures forall i :: 0 <= i < |r| ==> ValidProfile(r[i])
    ensures forall i, j :: 0 <= i < j < |r| ==> r[i].service != r[j].service
  {
    [ChatGpt, Claude, Canva, GitHub, MicrosoftCopilot, Gemini, Poe, Genspark, Grok, Perplexity, DeepSeek, Notion]
  }

  /**
   Only `claude` listens on the window, and only `notion` inserts a `<br>`
   for a rich-text newline.
   */
  lemma RegistryBindModes(k: nat)
    requires k < |Sites()|
    ensures ScopeOf(Sites()[k].bind) == WindowScope <==> Sites()[k].service == "claude"
    ensures RichNewlineOf(Sites()[k].bind) == InsertBreak <==> Sites()[k].service == "notion"
  {
  }

  /** Some domain of `p` occurs in `host`. */
  predicate Matches(host: string, p: Profile) {
    exists j :: 0 <= j < |p.domains| && Includes(host, p.domains[j])
  }

  /**
   The registry scan from index `from` on: the index of the first profile that
   matches, or None when no profile from `from` on matches.
   */
  function DetectFrom(host: string, sites: seq<Profile>, from: nat): (r: Option<nat>)
    requires from <= |sites|
    ensures r.Some? ==> from <= r.value < |sites| && Matches(host, sites[r.value])
    ensures r.Some? ==> forall k :: from <= k < r.value ==> !Matches(host, sites[k])
    ensures r.None? <==> forall k :: from <= k < |sites| ==> !Matches(host, sites[k])
    decreases |sites| - from
  {
    if from == |sites| then None
    else if Matches(host, sites[from]) then Some(from)
    else DetectFrom(host, sites, from + 1)
  }

  /** `detectSite(hostname)` over the registry `sites`: the first profile in order matching `host`. */
  function DetectSite(host: string, sites: seq<Profile>): (r: Option<Profile>)
    ensures r.Some? ==> exists k :: 0 <= k < |sites| && r.value == sites[k]
                                   && Matches(host, sites[k])
                                   && forall j :: 0 <= j < k ==> !Matches(host, sites[j])
    ensures r.None? <==> forall k :: 0 <= k < |sites| ==> !Matches(host, sites[k])
  {
    match DetectFrom(host, sites, 0)
    case Some(k) => Some(sites[k])
    case None => None
  }

  /** Once some profile matches, the detected profile is that one or an earlier one. */
  lemma {:induction false} MatchBoundsDetection(host: string, sites: seq<Profile>, i: nat)
    requires i < |sites| && Matches(host, sites[i])
    ensures exists k :: 0 <= k <= i && DetectSite(host, sites) == Some(sites[k])
  {
    var r := DetectFrom(host, sites, 0);
    assert r.Some?;
    assert r.value <= i;
  }

  /** Distinct table positions of the registry hold distinct profiles. */
  lemma ProfilesDistinct(i: nat, j: nat)
    requires i < j < |Sites()|
    ensures Sites()[i] != Sites()[j]
  {
    assert Sites()[i].service != Sites()[j].service;
  }

  /** When two profiles of the registry both match, the later one is never chosen. */
  lemma {:induction false} EarlierProfileWins(host: string, i: nat, j: nat)
    requires i < j < |Sites()|
    requires Matches(host, Sites()[i]) && Matches(host, Sites()[j])
    ensures DetectSite(host, Sites()) != Some(Sites()[j])
  {
    MatchBoundsDetection(host, Sites(), i);
    var k :| 0 <= k <= i && DetectSite(host, Sites()) == Some(Sites()[k]);
    ProfilesDistinct(k, j);
  }

  /** A host that is exactly a listed domain selects that service. */
  lemma DetectClaude()
    ensures DetectSite("claude.ai", Sites()) == Some(Sites()[1])
  {
    assert Includes("claude.ai", Sites()[1].domains[0]);
    assert !Matches("claude.ai", Sites()[0]);
  }

  /** A host shorter than every domain of the first eight profiles falls through to `grok`. */
  lemma DetectShortGrokHost()
    ensures DetectSite("x.ai", Sites()) == Some(Sites()[8])
  {
    var s := Sites();
    assert Includes("x.ai", s[8].domains[1]);
    assert forall k :: 0 <= k < 8 ==> !Matches("x.ai", s[k]);
  }
}

=== FILE: send.dfy ===
/**
 The send action: the profile's button selectors are tried in order and the
 first button that exists, is enabled and is visible is clicked; otherwise a
 script-built Enter is redispatched at the input element.
 */
module Send {
  import opened Options
  import opened Registry
  import opened Page
  import opened Events

  /** The three computed-style properties the visibility test reads, as strings. */
  datatype Style = Style(display: string, visibility: string, opacity: string)

  /** A send button: its `disabled` flag, computed style and layout box. */
  datatype Button = Button(id: ElemId, disabled: bool, style: Style, offsetWidth: int, offsetHeight: int)

  /** `isButtonVisible(button)`; `opacity` is compared as a string. */
  predicate IsButtonVisible(b: Button) {
    && b.style.display != "none"
    && b.style.visibility != "hidden"
    && b.style.opacity != "0"
    && b.offsetWidth > 0
    && b.offsetHeight > 0
  }

  /** `sendButton && !sendButton.disabled && this.isButtonVisible(sendButton)`. */
  predicate Qualifies(found: Option<Button>) {
    found.Some? && !found.value.disabled && IsButtonVisible(found.value)
  }

  /** `getSendButtonSelectors(siteConfig)`: the profile's list, or null without a profile. */
  function GetSendButtonSelectors(site: Option<Profile>): (r: Option<seq<Selector>>)
    ensures r.Some? <==> site.Some?
    ensures site.Some? ==> r.value == site.value.buttons
  {
    match site
    case None => None
    case Some(p) => Some(p.buttons)
  }

  /** The outcome of the send action. */
  datatype SendAction = ClickButton(index: nat, button: Button) | FallbackEnter

  /** The selector loop from position `from`: the first qualifying position, if any. */
  function FirstQualifying(sels: seq<Selector>, query: Selector -> Option<Button>, from: nat): (r: Option<nat>)
    requires from <= |sels|
    ensures r.Some? ==> from <= r.value < |sels| && Qualifies(query(sels[r.value]))
    ensures r.Some? ==> forall j :: from <= j < r.value ==> !Qualifies(query(sels[j]))
    ensures r.None? <==> forall j :: from <= j < |sels| ==> !Qualifies(query(sels[j]))
    decreases |sels| - from
  {
    if from == |sels| then None
    else if Qualifies(query(sels[from])) then Some(from)
    else FirstQualifying(sels, query, from + 1)
  }

  /**
   The decision of `simulateSendAction`; `query` stands for
   `document.querySelector`.
   */
  function ResolveSend(selectors: Option<seq<Selector>>, query: Selector -> Option<Button>): (r: SendAction)
    ensures r.ClickButton? ==>
      && selectors.Some? && r.index < |selectors.value|
      && query(selectors.value[r.index]) == Some(r.button)
      && !r.button.disabled && IsButtonVisible(r.button)
      && forall j :: 0 <= j < r.index ==> !Qualifies(query(selectors.value[j]))
    ensures r.FallbackEnter? <==>
      selectors.None? || forall j :: 0 <= j < |selectors.value| ==> !Qualifies(query(selectors.value[j]))
  {
    match selectors
    case None => FallbackEnter
    case Some(sels) =>
      match FirstQualifying(sels, query, 0)
      case Some(i) => ClickButton(i, query(sels[i]).value)
      case None => FallbackEnter
  }

  /** `dispatchOriginalEnterEvent(element, shiftKey = false)`. */
  function DispatchOriginalEnterEvent(target: ElemId, shiftKey: bool := false): (e: Effect)
    ensures e.DispatchKeyDown? && !e.event.isTrusted && e.event.key == "Enter"
    ensures e.event.target == target && e.event.shiftKey == shiftKey
  {
    DispatchKeyDown(SyntheticEnter(target, shiftKey))
  }

  /** `simulateSendAction(element)`: exactly one click or one redispatched plain Enter. */
  function SimulateSendAction(target: ElemId, selectors: Option<seq<Selector>>,
                              query: Selector -> Option<Button>): (log: seq<Effect>)
    ensures |log| == 1
    ensures Count(log, IsClick) + Count(log, IsKeyDown) == 1
    ensures Count(log, IsSuppression) == 0 && Count(log, IsInput) == 0
    ensures log[0].Click? <==> ResolveSend(selectors, query).ClickButton?
    ensures log[0].Click? ==> log[0].button == ResolveSend(selectors, query).button.id
    ensures log[0].DispatchKeyDown? ==> log[0].event == SyntheticEnter(target, false)
  {
    match ResolveSend(selectors, query)
    case ClickButton(_, b) => [Click(b.id)]
    case FallbackEnter => [DispatchOriginalEnterEvent(target)]
  }

  /** A button hidden by any one of the five tests is never the one clicked. */
  lemma HiddenButtonNeverClicked(sels: seq<Selector>, query: Selector -> Option<Button>, j: nat, b: Button)
    requires j < |sels| && query(sels[j]) == Some(b)
    requires || b.style.display == "none" || b.style.visibility == "hidden" || b.style.opacity == "0"
             || b.offsetWidth <= 0 || b.offsetHeight <= 0
    ensures var r := ResolveSend(Some(sels), query); r.ClickButton? ==> r.index != j
  {
  }

  /** An opacity that is zero but not spelled `"0"` does not hide a button. */
  lemma OpacityIsComparedAsText()
    ensures IsButtonVisible(Button(0, false, Style("block", "visible", "0.0"), 10, 10))
  {
  }

  /** A visible enabled button behind the first selector is clicked, whatever follows. */
  lemma FirstSelectorButtonClicked(sels: seq<Selector>, query: Selector -> Option<Button>, b: Button)
    requires |sels| > 0 && query(sels[0]) == Some(b) && !b.disabled && IsButtonVisible(b)
    ensures ResolveSend(Some(sels), query) == ClickButton(0, b)
  {
  }
}

=== FILE: session.dfy ===
/**
 One page load: `setupKeySwap` fixes the active profile once, binds the
 current inputs and starts the mutation observer; the 250 ms interval of
 `setupBindRegular` re-runs the binder on every tick. Scheduling is left to
 the host; each trigger is one transition on the session value.
 */
module Session {
  import opened Options
  import opened Registry
  import opened Page
  import opened Binder
  import opened Watcher

  /**
   `site` is `currentSite`; `observer` holds the selectors the mutation
   observer captured, or None when no observer was started.
   */
  datatype Session = Session(site: Option<Profile>, binder: BindState, observer: Option<seq<Selector>>)

  /** The relations every reachable session keeps. */
  ghost predicate Consistent(sess: Session) {
    && WellFormed(sess.binder)
    && (sess.site.None? ==> sess.binder == Empty && sess.observer.None?)
    && (sess.site.Some? ==> sess.observer == Some(sess.site.value.inputs))
  }

  /**
   `setupKeySwap()` for the page's hostname and its document at load time;
   `sites` is the registry (`Registry.Sites()` on a real page).
   */
  function SetupKeySwap(sites: seq<Profile>, host: string, dom: Dom): (r: Session)
    ensures r.site == DetectSite(host, sites)
    ensures Consistent(r)
    ensures r.site.None? ==> r.binder == Empty && r.observer.None?
    ensures r.site.Some? ==> forall e :: e in r.binder.bound <==> Covered(dom, r.site.value.inputs, e)
  {
    match DetectSite(host, sites)
    case None => Session(None, Empty, None)
    case Some(p) =>
      var st := BindAll(Empty, dom, p.inputs);
      Session(Some(p), st, Some(p.inputs))
  }

  /** One tick of the `setupBindRegular` interval. */
  function RescanTick(sess: Session, dom: Dom): (r: Session)
    ensures r.site == sess.site && r.observer == sess.observer
    ensures sess.site.None? ==> r == sess
    ensures sess.site.Some? ==> forall e :: e in r.binder.bound <==> e in sess.binder.bound || Covered(dom, sess.site.value.inputs, e)
    ensures Grows(sess.binder, r.binder)
    ensures Consistent(sess) ==> Consistent(r)
  {
    match sess.site
    case None => sess
    case Some(p) =>
      var st := BindAll(sess.binder, dom, p.inputs);
      sess.(binder := st)
  }

  /** One delivery of a mutation batch; with no observer there is no callback. */
  function OnMutations(sess: Session, dom: Dom, recs: seq<MutationRecord>): (r: Session)
    ensures r.site == sess.site && r.observer == sess.observer
    ensures sess.observer.None? ==> r == sess
    ensures sess.observer.Some? ==> forall e :: e in r.binder.bound <==> e in sess.binder.bound || BatchRebinds(dom, recs, sess.observer.value, e)
    ensures Grows(sess.binder, r.binder)
    ensures Consistent(sess) ==> Consistent(r)
  {
    match sess.observer
    case None => sess
    case Some(sels) =>
      var st := ObserveBatch(sess.binder, dom, recs, sels);
      sess.(binder := st)
  }

  /**
   On a host that matches no profile the script stays inert: nothing is bound,
   no observer is started, and every later tick or batch leaves it so.
   */
  lemma UnmatchedHostIsInert(sites: seq<Profile>, host: string, dom: Dom, later: Dom, recs: seq<MutationRecord>)
    requires forall k :: 0 <= k < |sites| ==> !Matches(host, sites[k])
    ensures SetupKeySwap(sites, host, dom).binder == Empty
    ensures SetupKeySwap(sites, host, dom).observer.None?
    ensures RescanTick(SetupKeySwap(sites, host, dom), later) == SetupKeySwap(sites, host, dom)
    ensures OnMutations(SetupKeySwap(sites, host, dom), later, recs) == SetupKeySwap(sites, host, dom)
  {
  }

  /**
   An input element inserted after load, directly or inside an added subtree,
   is marked bound by the mutation batch that reports it.
   */
  lemma {:induction false} InsertedInputBoundByBatch(sess: Session, dom: Dom, recs: seq<MutationRecord>,
                                                      i: nat, j: nat, k: nat, e: ElemId)
    requires Coherent(dom) && Consistent(sess) && sess.site.Some?
    requires i < |recs| && recs[i].kind == ChildList
    requires j < |recs[i].added| && recs[i].added[j].kind == ElementNode
    requires k < |sess.site.value.inputs|
    requires var n := recs[i].added[j].id;
             var s := sess.site.value.inputs[k];
             (e == n && dom.matches(n, s)) || e in dom.within(n, s)
    ensures e in OnMutations(sess, dom, recs).binder.bound
  {
    var sels := sess.site.value.inputs;
    var n := recs[i].added[j].id;
    assert e in dom.query(sels[k]);
    assert NodeRebinds(dom, n, sels, e);
    assert NodesRebind(dom, recs[i].added, sels, e);
    assert BatchRebinds(dom, recs, sels, e);
  }

  /** After a rescan tick every element any input selector matches is marked bound. */
  lemma RescanBindsEveryInput(sess: Session, dom: Dom, k: nat, e: ElemId)
    requires sess.site.Some? && k < |sess.site.value.inputs|
    requires e in dom.query(sess.site.value.inputs[k])
    ensures e in RescanTick(sess, dom).binder.bound
  {
  }

  /**
   A rescan tick never attaches a second listener to an element that is
   already bound, however many ticks run.
   */
  lemma {:induction false} RescansNeverRebind(sess: Session, doms: seq<Dom>, e: ElemId)
    requires Consistent(sess) && e in sess.binder.bound
    ensures Listeners(Rescans(sess, doms).binder, e) == 1
    decreases |doms|
  {
    if |doms| > 0 {
      RescansNeverRebind(RescanTick(sess, doms[0]), doms[1..], e);
    }
  }

  /** A run of rescan ticks, each seeing the document as it is at that tick. */
  function Rescans(sess: Session, doms: seq<Dom>): Session
    decreases |doms|
  {
    if |doms| == 0 then sess else Rescans(RescanTick(sess, doms[0]), doms[1..])
  }

  /** A second tick over an unchanged document changes nothing. */
  lemma RescanIdempotent(sess: Session, dom: Dom)
    ensures RescanTick(RescanTick(sess, dom), dom) == RescanTick(sess, dom)
  {
    if sess.site.Some? {
      BindAllIdempotent(sess.binder, dom, sess.site.value.inputs);
    }
  }
}

=== FILE: strings.dfy ===
/**
 The two pieces of JavaScript string behaviour the content script relies on:
 `String.prototype.includes` (host matching) and `String.prototype.substring`
 (the textarea splice).
 */
module Strings {

  /** `d` occurs in `h` starting at index `i`. */
  ghost predicate OccursAt(h: string, d: string, i: int) {
    0 <= i && i + |d| <= |h| && h[i..i + |d|] == d
  }

  /** `h.includes(d)`: scans `h` left to right for an occurrence of `d`. */
  function Includes(h: string, d: string): bool
    decreases |h|
  {
    if |d| > |h| then false
    else if h[..|d|] == d then true
    else Includes(h[1..], d)
  }

  /** `Includes` holds exactly when `d` occurs at some index of `h`. */
  lemma {:induction false} IncludesIffOccurs(h: string, d: string)
    ensures Includes(h, d) <==> exists i :: OccursAt(h, d, i)
    decreases |h|
  {
    if |d| > |h| {
      forall i | OccursAt(h, d, i) ensures false { }
    } else if h[..|d|] == d {
      assert OccursAt(h, d, 0);
    } else {
      IncludesIffOccurs(h[1..], d);
      if Includes(h, d) {
        var i :| OccursAt(h[1..], d, i);
        assert h[1..][i..i + |d|] == h[i + 1..i + 1 + |d|];
        assert OccursAt(h, d, i + 1);
      } else {
        forall i | OccursAt(h, d, i) ensures false {
          if i != 0 {
            assert h[1..][i - 1..i - 1 + |d|] == h[i..i + |d|];
            assert OccursAt(h[1..], d, i - 1);
          }
        }
      }
    }
  }

  /** The empty string is included in every string, as in JavaScript. */
  lemma IncludesEmpty(h: string)
    ensures Includes(h, "")
  {
  }

  /** JavaScript's clamping of a string index into `[0, n]`. */
  function Clamp(x: int, n: nat): (r: nat)
    ensures r <= n
    ensures 0 <= x <= n ==> r == x
  {
    if x < 0 then 0 else if x > n then n else x
  }

  /**
   `s.substring(a, b)`: both indices are clamped into `[0, |s|]` and swapped
   when the first exceeds the second.
   */
  function Substring(s: string, a: int, b: int): (r: string)
    ensures 0 <= a <= b <= |s| ==> r == s[a..b]
    ensures |r| == if Clamp(a, |s|) <= Clamp(b, |s|) then Clamp(b, |s|) - Clamp(a, |s|)
                   else Clamp(a, |s|) - Clamp(b, |s|)
  {
    var lo := Clamp(a, |s|);
    var hi := Clamp(b, |s|);
    if lo <= hi then s[lo..hi] else s[hi..lo]
  }

  /** `s.substring(a)`: the second index defaults to the length. */
  function SubstringFrom(s: string, a: int): (r: string)
    ensures 0 <= a <= |s| ==> r == s[a..]
    ensures |r| == |s| - Clamp(a, |s|)
  {
    Substring(s, a, |s|)
  }
}

=== FILE: textarea.dfy ===
/** The newline splice performed on a `TEXTAREA`'s value and selection. */
module TextArea {
  import opened Strings

  datatype TextArea = TextArea(value: string, selectionStart: nat, selectionEnd: nat)

  /** The selection the browser maintains: ordered and inside the value. */
  predicate ValidSelection(t: TextArea) {
    t.selectionStart <= t.selectionEnd <= |t.value|
  }

  /**
   Replaces the selection (or inserts at the caret) with one `'\n'` and puts
   the caret right after it. The browser clamps a caret beyond the value.
   */
  function SpliceNewline(t: TextArea): (r: TextArea)
    ensures ValidSelection(r) && r.selectionStart == r.selectionEnd
    ensures ValidSelection(t) ==>
      && r.value == t.value[..t.selectionStart] + "\n" + t.value[t.selectionEnd..]
      && |r.value| == |t.value| - (t.selectionEnd - t.selectionStart) + 1
      && r.selectionStart == t.selectionStart + 1
  {
    var v := Substring(t.value, 0, t.selectionStart) + "\n" + SubstringFrom(t.value, t.selectionEnd);
    var caret := Clamp(t.selectionStart + 1, |v|);
    TextArea(v, caret, caret)
  }

  /** Backspace at a collapsed caret: removes the character before it. */
  function DeleteBackward(t: TextArea): (r: TextArea)
    requires ValidSelection(t) && t.selectionStart == t.selectionEnd
    ensures ValidSelection(r)
    ensures t.selectionStart > 0 ==> |r.value| == |t.value| - 1
  {
    var c := t.selectionStart;
    if c == 0 then t else TextArea(t.value[..c - 1] + t.value[c..], c - 1, c - 1)
  }

  /** Backspace right after the splice undoes it when nothing was selected. */
  lemma SpliceThenDeleteRestores(t: TextArea)
    requires ValidSelection(t) && t.selectionStart == t.selectionEnd
    ensures DeleteBackward(SpliceNewline(t)) == t
  {
    var r := SpliceNewline(t);
    var s := t.selectionStart;
    assert r.value[..s] == t.value[..s];
    assert r.value[s + 1..] == t.value[s..];
    assert t.value[..s] + t.value[s..] == t.value;
  }

  /** The text outside the selection is kept, with the newline between the two parts. */
  lemma SpliceKeepsSurroundings(t: TextArea)
    requires ValidSelection(t)
    ensures var r := SpliceNewline(t);
      && r.value[..t.selectionStart] == t.value[..t.selectionStart]
      && r.value[t.selectionStart] == '\n'
      && r.value[t.selectionStart + 1..] == t.value[t.selectionEnd..]
  {
  }

  /** `"ab|cd"` becomes `"ab\ncd"` with the caret after the newline. */
  lemma SpliceExample()
    ensures SpliceNewline(TextArea("abcd", 2, 2)) == TextArea("ab\ncd", 3, 3)
  {
    assert "abcd"[..2] + "\n" + "abcd"[2..] == "ab\ncd";
  }
}

=== FILE: watcher.dfy ===
/**
 The mutation callback installed by `setupMutationObserver`: for every added
 element node and every input selector, a direct match or a match inside the
 added subtree re-runs the binder for that selector.
 */
module Watcher {
  import opened Page
  import opened Binder

  /** The added element `id` makes the callback re-run the binder for `s`. */
  predicate Triggered(dom: Dom, id: ElemId, s: Selector) {
    dom.matches(id, s) || |dom.within(id, s)| > 0
  }

  /** `e` is matched by a selector that the added element `id` triggers. */
  ghost predicate NodeRebinds(dom: Dom, id: ElemId, sels: seq<Selector>, e: ElemId) {
    exists k :: 0 <= k < |sels| && Triggered(dom, id, sels[k]) && e in dom.query(sels[k])
  }

  /** `e` is rebound on behalf of one of the added element nodes. */
  ghost predicate NodesRebind(dom: Dom, nodes: seq<Node>, sels: seq<Selector>, e: ElemId) {
    exists j :: 0 <= j < |nodes| && nodes[j].kind == ElementNode && NodeRebinds(dom, nodes[j].id, sels, e)
  }

  /** `e` is rebound on behalf of a node added by one of the `childList` records. */
  ghost predicate BatchRebinds(dom: Dom, recs: seq<MutationRecord>, sels: seq<Selector>, e: ElemId) {
    exists i :: 0 <= i < |recs| && recs[i].kind == ChildList && NodesRebind(dom, recs[i].added, sels, e)
  }

  /** The two tests for one selector; a match of either kind re-runs the binder. */
  function ObserveSelector(st: BindState, dom: Dom, id: ElemId, s: Selector): (r: BindState)
    ensures forall e :: e in r.bound <==> e in st.bound || (Triggered(dom, id, s) && e in dom.query(s))
    ensures Grows(st, r)
  {
    var st1 := if dom.matches(id, s) then ApplyKeySwapToSelector(st, dom, s) else st;
    if |dom.within(id, s)| > 0 then ApplyKeySwapToSelector(st1, dom, s) else st1
  }

  lemma NodeRebindsSplit(dom: Dom, id: ElemId, sels: seq<Selector>, e: ElemId)
    requires |sels| > 0
    ensures NodeRebinds(dom, id, sels, e) <==>
            (Triggered(dom, id, sels[0]) && e in dom.query(sels[0])) || NodeRebinds(dom, id, sels[1..], e)
  {
    if NodeRebinds(dom, id, sels, e) && !(Triggered(dom, id, sels[0]) && e in dom.query(sels[0])) {
      var k :| 0 <= k < |sels| && Triggered(dom, id, sels[k]) && e in dom.query(sels[k]);
      assert sels[1..][k - 1] == sels[k];
    }
    if NodeRebinds(dom, id, sels[1..], e) {
      var k :| 0 <= k < |sels| - 1 && Triggered(dom, id, sels[1..][k]) && e in dom.query(sels[1..][k]);
      assert sels[k + 1] == sels[1..][k];
    }
  }

  /** The selector loop for one added element node. */
  function ObserveElement(st: BindState, dom: Dom, id: ElemId, sels: seq<Selector>): (r: BindState)
    ensures forall e :: e in r.bound <==> e in st.bound || NodeRebinds(dom, id, sels, e)
    ensures Grows(st, r)
    decreases |sels|
  {
    if |sels| == 0 then st
    else
      var r := ObserveElement(ObserveSelector(st, dom, id, sels[0]), dom, id, sels[1..]);
      assert forall e :: NodeRebinds(dom, id, sels, e) <==>
          (Triggered(dom, id, sels[0]) && e in dom.query(sels[0])) || NodeRebinds(dom, id, sels[1..], e) by {
        forall e { NodeRebindsSplit(dom, id, sels, e); }
      }
      r
  }

  /** `mutation.addedNodes.forEach(...)`: non-element nodes are skipped. */
  function ObserveNodes(st: BindState, dom: Dom, nodes: seq<Node>, sels: seq<Selector>): (r: BindState)
    ensures forall e :: e in r.bound <==> e in st.bound || NodesRebind(dom, nodes, sels, e)
    ensures Grows(st, r)
    decreases |nodes|
  {
    if |nodes| == 0 then st
    else
      var n := nodes[0];
      var st1 := if n.kind == ElementNode then ObserveElement(st, dom, n.id, sels) else st;
      var r := ObserveNodes(st1, dom, nodes[1..], sels);
      assert forall e :: NodesRebind(dom, nodes, sels, e) <==>
          (n.kind == ElementNode && NodeRebinds(dom, n.id, sels, e)) || NodesRebind(dom, nodes[1..], sels, e) by {
        forall e ensures NodesRebind(dom, nodes, sels, e) <==>
            (n.kind == ElementNode && NodeRebinds(dom, n.id, sels, e)) || NodesRebind(dom, nodes[1..], sels, e) {
          if NodesRebind(dom, nodes, sels, e) && !(n.kind == ElementNode && NodeRebinds(dom, n.id, sels, e)) {
            var j :| 0 <= j < |nodes| && nodes[j].kind == ElementNode && NodeRebinds(dom, nodes[j].id, sels, e);
            assert nodes[1..][j - 1] == nodes[j];
          }
          if NodesRebind(dom, nodes[1..], sels, e) {
            var j :| 0 <= j < |nodes| - 1 && nodes[1..][j].kind == ElementNode && NodeRebinds(dom, nodes[1..][j].id, sels, e);
            assert nodes[j + 1] == nodes[1..][j];
          }
        }
      }
      r
  }

  /** `mutations.forEach(...)`: only `childList` records are looked at. */
  function ObserveBatch(st: BindState, dom: Dom, recs: seq<MutationRecord>, sels: seq<Selector>): (r: BindState)
    ensures forall e :: e in r.bound <==> e in st.bound || BatchRebinds(dom, recs, sels, e)
    ensures Grows(st, r)
    decreases |recs|
  {
    if |recs| == 0 then st
    else
      var m := recs[0];
      var st1 := if m.kind == ChildList then ObserveNodes(st, dom, m.added, sels) else st;
      var r := ObserveBatch(st1, dom, recs[1..], sels);
      assert forall e :: BatchRebinds(dom, recs, sels, e) <==>
          (m.kind == ChildList && NodesRebind(dom, m.added, sels, e)) || BatchRebinds(dom, recs[1..], sels, e) by {
        forall e ensures BatchRebinds(dom, recs, sels, e) <==>
            (m.kind == ChildList && NodesRebind(dom, m.added, sels, e)) || BatchRebinds(dom, recs[1..], sels, e) {
          if BatchRebinds(dom, recs, sels, e) && !(m.kind == ChildList && NodesRebind(dom, m.added, sels, e)) {
            var i :| 0 <= i < |recs| && recs[i].kind == ChildList && NodesRebind(dom, recs[i].added, sels, e);
            assert recs[1..][i - 1] == recs[i];
          }
          if BatchRebinds(dom, recs[1..], sels, e) {
            var i :| 0 <= i < |recs| - 1 && recs[1..][i].kind == ChildList && NodesRebind(dom, recs[1..][i].added, sels, e);
            assert recs[i + 1] == recs[1..][i];
          }
        }
      }
      r
  }

  /** A batch whose records add no element nodes binds nothing. */
  lemma {:induction false} BatchWithoutElementsIsNoop(st: BindState, dom: Dom, recs: seq<MutationRecord>, sels: seq<Selector>)
    requires forall i, j :: 0 <= i < |recs| && 0 <= j < |recs[i].added| ==> recs[i].added[j].kind != ElementNode
    ensures ObserveBatch(st, dom, recs, sels) == st
    decreases |recs|
  {
    if |recs| > 0 {
      if recs[0].kind == ChildList {
        NodesWithoutElementsAreNoop(st, dom, recs[0].added, sels);
      }
      BatchWithoutElementsIsNoop(st, dom, recs[1..], sels);
    }
  }

  lemma {:induction false} NodesWithoutElementsAreNoop(st: BindState, dom: Dom, nodes: seq<Node>, sels: seq<Selector>)
    requires forall j :: 0 <= j < |nodes| ==> nodes[j].kind != ElementNode
    ensures ObserveNodes(st, dom, nodes, sels) == st
    decreases |nodes|
  {
    if |nodes| > 0 {
      NodesWithoutElementsAreNoop(st, dom, nodes[1..], sels);
    }
  }
}
